=== FILE: README.md ===
# Buffalo property sales: the cleaning pipeline and the map view filter

This project models the data-cleaning core of the Buffalo property-sales map in Dafny.
That core is `process_data`, which exists in two near-identical copies:

- `utils/util.py` has the full version. It also filters on PROPERTY CLASS and keeps seven columns.
- `helpers.py` has the shorter version. It keeps every column and has no class filter.

The project also models the row selection behind the map in `main.py`:

- the initial year and class window;
- `update_data`, which re-selects rows by an inclusive DEED YEAR range and by the property-class buckets whose checkbox is active.

A table is a `seq` of immutable records. Every stage is a pure function on the whole table:

1. Drop the rows without a LOCATION.
2. Add the Web Mercator `x`/`y`.
3. Read the placeholder deed date from the row labelled 0, then drop every row carrying it.
4. Derive DEED YEAR from the DEED DATE text. The first failure aborts the run.
5. Keep DEED YEAR > 1990.
6. Keep SALE PRICE > 10000.
7. In `utils/util.py` only: keep PROPERTY CLASS < 500 and select the view columns.

The exceptions pandas raises become the `Failure` side of a `Result`:

- `KeyError` when no row carries label 0;
- `AttributeError` when a DEED DATE is missing (NaN);
- `ValueError` when Python's `int()` rejects the year text.

Layout:

- `wrappers.dfy`: `Option` and `Result`.
- `seqs.dfy`: order-preserving filter and map, the subsequence relation, and the algebra of filters.
- `py_int.dfy`: Python's `int()` on a string, and decimal printing.
- `deed_date.dfy`: the DEED YEAR string surgery.
- `records.dfy`: the row types and the error type.
- `cleaning.dfy`: the stages, plus a one-filter reference statement of the whole pipeline.
- `helpers.dfy` and `util.dfy`: the two `process_data` versions.
- `view.dfy`: the map view's filters.

Points where the code's behaviour differs from a casual reading of it:

- **The placeholder is found by label.** `df['DEED DATE'][0]` looks up the row whose index label is 0, not the first row left after the location filter. There are two cases:
  - If the row labelled 0 has no LOCATION, the lookup raises `KeyError` (`Cleaning.SentinelDate`, `Cleaning.SentinelLookup`).
  - When the first raw row has a LOCATION and is labelled 0, the two readings agree (`Cleaning.SentinelFromFirstRow`).
- **The date is split on single spaces.** `split(' ')` splits on one space character, not on arbitrary whitespace.
- **Dates need not have the month/day/year shape.** Only the text after the last `/` of the first space-separated field is parsed. So a bare year such as `"2015"` is accepted (`DeedDate.BareYearAccepted`) instead of being rejected.
- **A missing DEED DATE is not dropped with the placeholder.** A missing value compares unequal to everything in pandas, so the placeholder filter keeps it. The `.split` call then fails with `AttributeError`.

## Model

| member | source | states |
|---|---|---|
| PyInt.ParseInt | utils/util.py:42 | `int()` on the year text succeeds exactly when the text is an integer literal once surrounding whitespace (tab to carriage return, and space) is removed: an optional sign, then digits with single underscores between them |
| PyInt.SeparatorNotStripped | utils/util.py:42 | a year preceded by an information separator (0x1C to 0x1F) is rejected, because `int()` does not strip those characters even though `str.isspace()` accepts them |
| PyInt.ParseValue | utils/util.py:42 | the value `int()` returns is the number whose `str()` is the stripped literal with its `+`, its underscores and its leading zeros removed (and no sign on zero), so `+1995`, `01995` and `1_995` all read as 1995 |
| PyInt.DecimalRoundTrip | utils/util.py:42 | parsing the decimal spelling of any integer gives that integer back |
| PyInt.ParseIgnoresPadding | utils/util.py:42 | leading and trailing whitespace around a literal does not change what `int()` returns |
| DeedDate.FirstSpaceField | utils/util.py:42 | `split(' ')[0]`: the result is a prefix of the date, contains no space, and is followed by a space unless it is the whole date |
| DeedDate.LastSlashField | utils/util.py:42 | `split('/')[-1]`: the result is a suffix of the field, contains no slash, and is preceded by a slash unless it is the whole field |
| DeedDate.DeedYear | utils/util.py:42 | a date with neither a space nor a slash is read whole by `int()`; a date starting with a space has an empty first field and fails |
| DeedDate.DeedYearOfDate | utils/util.py:42 | for a date `month/day/year` followed by nothing or by a space and more text, the derived DEED YEAR is `year`, whatever `month`, `day` and the rest are, as long as `month` and `day` have no space |
| DeedDate.PlaceholderYear | helpers.py:32 | a placeholder such as `1/1/1900 0:00` yields year 1900 if it reaches the year stage |
| DeedDate.WordRejected | helpers.py:32 | a date that starts with anything other than a digit, a sign or whitespace (any letter, upper or lower case), does not end in whitespace and has no space or slash fails to parse |
| DeedDate.NotADateRejected | helpers.py:32 | the date `not-a-date` is its own year field and fails to parse |
| DeedDate.BareYearAccepted | utils/util.py:42 | a date that is just a year, with no slashes, parses to that year |
| Cleaning.DropMissingLocation | utils/util.py:35 | the location filter keeps exactly the rows with a LOCATION, in order and unchanged; each row keeps its multiplicity, and rows without a LOCATION all go |
| Cleaning.Reproject | utils/util.py:37 | every row gets `x`/`y` from its own longitude and latitude; the rows themselves are unchanged, in the same order |
| Cleaning.SentinelDate | utils/util.py:39 | the placeholder is the DEED DATE of a row labelled 0; the lookup fails with `KeyError(0)` exactly when no row carries that label |
| Cleaning.DropSentinel | utils/util.py:40 | keeps, in order, every copy of each row whose DEED DATE differs from the placeholder under pandas `!=`, and no copy of the others; when the placeholder is present, no kept row carries it |
| Cleaning.YearOfDatedRow | utils/util.py:42 | a row dated `month/day/year`, optionally followed by a space and more text, with no space in `month` or `day`, gets DEED YEAR `year` |
| Cleaning.YearOfNotADate | utils/util.py:42 | a row dated `not-a-date` makes the year stage raise `ValueError` for that row and that text |
| Cleaning.YearOfWholeDate | utils/util.py:42 | a date with neither a space nor a slash that `int()` rejects raises `ValueError` for that row, naming the whole date |
| Cleaning.YearOfBadField | utils/util.py:42 | a row dated `month/day/field rest` whose year field `int()` rejects raises `ValueError` for that row, naming the year field (not the whole date), as Python's message does |
| Cleaning.DeriveYears | utils/util.py:42 | succeeds exactly when every row's year parses, and then adds each row's own year in place; otherwise fails with the exception of the first failing row |
| Cleaning.KeepRecentDeeds | utils/util.py:43 | keeps, in order, every copy of each row with DEED YEAR strictly above 1990 (1990 dropped, 1991 kept) and no copy of the others |
| Cleaning.KeepRecentDeedsUnique | utils/util.py:43 | any order-preserving selection that keeps every copy of each row dated after 1990 and nothing else is the year filter's result |
| Cleaning.KeepRealSales | utils/util.py:45 | keeps, in order, every copy of each row with SALE PRICE strictly above 10000 (10000 dropped) and no copy of the others |
| Cleaning.KeepLowerClasses | utils/util.py:47 | keeps, in order, every copy of each row with PROPERTY CLASS below 500 and no copy of the others |
| Cleaning.SelectCommutesWithClassFilter | utils/util.py:47-51 | selecting the seven view columns and the PROPERTY CLASS filter commute: filtering the view rows by class gives the columns of the rows the class filter keeps |
| Cleaning.Expected | helpers.py:25-35 | the reference result, a single filter of the raw table followed by the derived columns: every row is clean, none carries the placeholder date, and the raw rows form a subsequence of the input |
| Cleaning.SentinelLookup | helpers.py:25-29 | looking up label 0 after the location filter finds the first raw row that is labelled 0 and has a LOCATION, and fails exactly when there is none |
| Cleaning.SentinelFromFirstRow | helpers.py:29 | when the first raw row has a LOCATION and is labelled 0, the placeholder is that row's DEED DATE |
| Cleaning.DeriveYearsFailsIff | helpers.py:32 | the year stage aborts exactly when some raw row that passed the location and placeholder filters has a missing or unparsable DEED DATE |
| Cleaning.StagesMatchExpected | helpers.py:25-35 | when the year stage succeeds, the chain of stages equals the one-filter reference |
| Helpers.ProcessData | helpers.py:25-35 | fails with `KeyError(0)` when no located row is labelled 0; otherwise fails exactly when a row reaching the year stage has a bad date, and on success equals the reference: clean rows, in input order, with every raw column kept |
| Helpers.SurvivorsKept | helpers.py:35 | every raw row that passes the location, placeholder, year and price filters is in the output, whatever its PROPERTY CLASS (so classes of 500 and above are kept) |
| Helpers.SentinelRowDropped | helpers.py:29-30 | when the placeholder is present, no output row carries it, so the row it was read from is dropped too |
| Util.ProcessData | utils/util.py:35-51 | on success, the output is no longer than the input, and every row has DEED YEAR above 1990, SALE PRICE above 10000 and PROPERTY CLASS below 500 |
| Util.AgreesWithHelpers | utils/util.py:47-51 | on the same table, the result of utils/util.py is helpers.py's result with the class filter and the column selection applied; it fails exactly when helpers.py fails, with the same exception |
| Util.FilterOrderIrrelevant | utils/util.py:43-47 | each of the six orders of the year, price and class filters selects the same rows as the one combined filter |
| Util.MatchesReference | utils/util.py:35-51 | the whole of utils/util.py equals one filter of the raw table (survives every stage and has class below 500) followed by the derived view columns |
| View.UpdateData | main.py:73-85 | every row `update_data` shows comes from the table and has DEED YEAR in the inclusive range, and it never shows more rows than the table has |
| View.UpdateDataIsOneFilter | main.py:73-82 | the chain of year and checkbox filters selects exactly the rows in the inclusive year range whose class no inactive checkbox hides |
| View.UpdateDataInRange | main.py:75 | every shown row comes from the table, in order, with `start <= DEED YEAR <= end` |
| View.UpdateDataHidesBuckets | main.py:77-82 | with checkbox 0, 1 or 2 inactive, no shown row has a class in [200,300), [300,400) or [400,500) respectively |
| View.UpdateDataComplete | main.py:73-82 | every in-range row whose class is not hidden is shown |
| View.OutsideBucketsAlwaysShown | main.py:77-82 | an in-range row with class below 200 or at least 500 is shown whatever the checkboxes |
| View.AllActiveOnlyYears | main.py:77-82 | with all three checkboxes active, only the year filter applies |
| View.InitialView | main.py:29-31 | the initial view keeps, in order, every copy of each row with 2013 <= DEED YEAR <= 2019 and 200 <= PROPERTY CLASS < 300, and no copy of the others |
| View.InitialViewIsOneFilter | main.py:30-31 | the year filter followed by the class filter is one filter by the initial window; the result is a subsequence of the table with every copy of each row in the window |
| View.InitialViewIsResidentialUpdate | main.py:29-31 | on a table whose classes all lie in [200,500), the initial view equals `update_data(2013, 2019)` with only the Residential checkbox active |
| View.InitialViewDiffersFromUpdate | main.py:31 | on other tables the two differ: a 2015 row of class 100 is shown by `update_data` but not by the initial view |

## Left out

- Reading and writing CSV files and `load_data` (`pd.read_csv`, `to_csv`): this is file I/O. The model starts from the loaded table, a sequence of records.
- The Web Mercator formulas: they are floating-point `log`, `tan` and π. The projection is a parameter, a total function from longitude and latitude to a point, so the model does not cover the undefined result at ±90° latitude.
- The `print` diagnostics and the slider's min/max display ranges: they are presentational.
- The Bokeh figure, tiles, hover tool, colour bar, slider and checkbox wiring: they are user interface. `update_data` receives the active checkboxes as a set, and the data source it updates becomes its result.
- Cleaning.SentinelDate: when several located rows carry label 0, pandas returns a Series rather than one value, and comparing the DEED DATE column with that Series (utils/util.py:40, helpers.py:30) raises `ValueError` unless the two indexes are identical. The model instead takes the first such row and carries on, so on such tables it succeeds where the program aborts.
- PyInt.ParseInt: only ASCII digits and ASCII whitespace are modelled. Python also accepts other Unicode decimal digits and spaces.
- PyInt.ParseInt: the limit on the number of digits `int()` converts (4300 by default since Python 3.11, and configurable) is not modelled. Longer literals raise `ValueError` in Python but parse here, and PyInt.DecimalRoundTrip holds only below that limit in Python.
- Missing values in numeric columns (SALE PRICE, PROPERTY CLASS, LATITUDE, LONGITUDE): every numeric cell is a number here. Float-valued SALE PRICE is modelled as an integer.
- `apply` on an empty table: the model yields an empty table. pandas returns an empty frame instead of a column, which is not modelled.
- Util.ProcessData: its own contract states only the bounds. Its exact contents are stated by Util.MatchesReference and Util.AgreesWithHelpers.

=== FILE: cleaning.dfy ===
/** The stages of `process_data`, shared by utils/util.py and helpers.py,
    each as an operation on a whole table. */
module Cleaning {
  import opened Wrappers
  import opened Seqs
  import opened Records
  import opened DeedDate
  import opened PyInt

  /** DEED YEAR must be strictly above this. */
  const YearFloor := 1990
  /** SALE PRICE must be strictly above this. */
  const PriceFloor := 10000
  /** PROPERTY CLASS must be strictly below this (utils/util.py only). */
  const ClassCeiling := 500
  /** The row label whose DEED DATE is taken as the "no date" placeholder. */
  const SentinelLabel := 0

  // Stage 1: location filter.

  predicate HasLocation(x: RawRecord) {
    x.location.Some?
  }

  /** Keeps exactly the rows whose LOCATION is present, in order, unchanged. */
  function DropMissingLocation(t: seq<RawRecord>): (r: seq<RawRecord>)
    ensures |r| <= |t| && IsSubsequence(r, t)
    ensures forall i :: 0 <= i < |r| ==> r[i] in t && r[i].location.Some?
    ensures forall i :: 0 <= i < |t| && t[i].location.Some? ==> t[i] in r
    ensures forall x :: multiset(r)[x] == if x.location.Some? then multiset(t)[x] else 0
  {
    FilterIsSubsequence(t, HasLocation);
    FilterCount(t, HasLocation);
    Filter(t, HasLocation)
  }

  // Stage 2: Web Mercator coordinates.

  function Place(x: RawRecord, mercator: Projection): Placed {
    Placed(x, mercator(x.longitude, x.latitude))
  }

  function PlaceWith(mercator: Projection): RawRecord -> Placed {
    x => Place(x, mercator)
  }

  /** Adds the `x`/`y` columns to every row. */
  function Reproject(t: seq<RawRecord>, mercator: Projection): (r: seq<Placed>)
    ensures |r| == |t|
    ensures forall i :: 0 <= i < |t| ==> r[i].at == mercator(t[i].longitude, t[i].latitude)
    ensures Map(r, PlacedRaw) == t
  {
    Map(t, PlaceWith(mercator))
  }

  // Stage 3: the placeholder deed date.

  predicate IsSentinelLabel(p: Placed) {
    p.raw.id == SentinelLabel
  }

  /** `df['DEED DATE'][0]`: the DEED DATE of the row labelled 0. The lookup
      is by label, not by position, and raises KeyError when no row
      carries that label. */
  function SentinelDate(t: seq<Placed>): (r: Result<Option<string>, Error>)
    ensures r.Failure? <==> forall i :: 0 <= i < |t| ==> t[i].raw.id != SentinelLabel
    ensures r.Failure? ==> r.error == KeyError(SentinelLabel)
    ensures r.Success? ==> exists i :: 0 <= i < |t| && t[i].raw.id == SentinelLabel && r.value == t[i].raw.deedDate
  {
    match FirstIndex(t, IsSentinelLabel)
    case None => Failure(KeyError(SentinelLabel))
    case Some(i) => Success(t[i].raw.deedDate)
  }

  /** pandas `date != sentinel`: a missing value is unequal to everything,
      itself included. */
  predicate DiffersFrom(date: Option<string>, sentinel: Option<string>) {
    date.None? || sentinel.None? || date.value != sentinel.value
  }

  function KeepsDate(sentinel: Option<string>): Placed -> bool {
    (p: Placed) => DiffersFrom(p.raw.deedDate, sentinel)
  }

  /** Keeps exactly the rows whose DEED DATE is not the placeholder text. */
  function DropSentinel(t: seq<Placed>, sentinel: Option<string>): (r: seq<Placed>)
    ensures |r| <= |t| && IsSubsequence(r, t)
    ensures forall i :: 0 <= i < |r| ==> r[i] in t && DiffersFrom(r[i].raw.deedDate, sentinel)
    ensures forall i :: 0 <= i < |t| && DiffersFrom(t[i].raw.deedDate, sentinel) ==> t[i] in r
    ensures sentinel.Some? ==> forall i :: 0 <= i < |r| ==> r[i].raw.deedDate != sentinel
    ensures forall x :: multiset(r)[x] == if DiffersFrom(x.raw.deedDate, sentinel) then multiset(t)[x] else 0
  {
    FilterIsSubsequence(t, KeepsDate(sentinel));
    FilterCount(t, KeepsDate(sentinel));
    Filter(t, KeepsDate(sentinel))
  }

  // Stage 4: DEED YEAR.

  /** The DEED YEAR of one row, or the exception computing it raises. */
  function YearOf(x: RawRecord): (r: Result<int, Error>)
    ensures r.Success? <==> x.deedDate.Some? && DeedYear(x.deedDate.value).Some?
    ensures r.Success? ==> DeedYear(x.deedDate.value) == Some(r.value)
    ensures x.deedDate.None? ==> r == Failure(AttributeError(x.id))
    ensures x.deedDate.Some? && DeedYear(x.deedDate.value).None? ==>
      r == Failure(ValueError(x.id, LastSlashField(FirstSpaceField(x.deedDate.value))))
  {
    match x.deedDate
    case None => Failure(AttributeError(x.id))
    case Some(date) =>
      match DeedYear(date)
      case None => Failure(ValueError(x.id, LastSlashField(FirstSpaceField(date))))
      case Some(y) => Success(y)
  }

  predicate YearFails(p: Placed) {
    YearOf(p.raw).Failure?
  }

  /** The row with its DEED YEAR column added. Only applied to rows whose
      year parses; the 0 of the other branch is never produced. */
  function AddYear(p: Placed): Row {
    Row(p.raw, p.at, match YearOf(p.raw) case Success(y) => y case Failure(_) => 0)
  }

  /** Adds DEED YEAR to every row. `apply` visits the rows in order, so the
      first row whose year cannot be computed aborts the whole stage with
      that row's exception. */
  function DeriveYears(t: seq<Placed>): (r: Result<seq<Row>, Error>)
    ensures r.Success? <==> forall i :: 0 <= i < |t| ==> YearOf(t[i].raw).Success?
    ensures r.Success? ==> |r.value| == |t|
    ensures r.Success? ==> forall i :: 0 <= i < |t| ==>
      r.value[i] == Row(t[i].raw, t[i].at, YearOf(t[i].raw).value)
    ensures r.Failure? ==>
      exists k :: 0 <= k < |t| && YearOf(t[k].raw) == Failure(r.error) &&
        forall j :: 0 <= j < k ==> YearOf(t[j].raw).Success?
  {
    match FirstIndex(t, YearFails)
    case Some(k) => Failure(YearOf(t[k].raw).error)
    case None => Success(Map(t, AddYear))
  }

  // Stages 5 to 7: the year, price and class filters.

  predicate IsRecentDeed(w: Row) {
    w.deedYear > YearFloor
  }

  predicate IsRealSale(w: Row) {
    w.raw.salePrice > PriceFloor
  }

  predicate IsLowerClass(w: Row) {
    w.raw.propertyClass < ClassCeiling
  }

  /** Keeps exactly the rows with DEED YEAR above 1990. */
  function KeepRecentDeeds(t: seq<Row>): (r: seq<Row>)
    ensures |r| <= |t| && IsSubsequence(r, t)
    ensures forall i :: 0 <= i < |r| ==> r[i] in t && r[i].deedYear > YearFloor
    ensures forall i :: 0 <= i < |t| && t[i].deedYear > YearFloor ==> t[i] in r
    ensures forall x :: multiset(r)[x] == if x.deedYear > YearFloor then multiset(t)[x] else 0
  {
    FilterIsSubsequence(t, IsRecentDeed);
    FilterCount(t, IsRecentDeed);
    Filter(t, IsRecentDeed)
  }

  /** Keeps exactly the rows with SALE PRICE above 10000. */
  function KeepRealSales(t: seq<Row>): (r: seq<Row>)
    ensures |r| <= |t| && IsSubsequence(r, t)
    ensures forall i :: 0 <= i < |r| ==> r[i] in t && r[i].raw.salePrice > PriceFloor
    ensures forall i :: 0 <= i < |t| && t[i].raw.salePrice > PriceFloor ==> t[i] in r
    ensures forall x :: multiset(r)[x] == if x.raw.salePrice > PriceFloor then multiset(t)[x] else 0
  {
    FilterIsSubsequence(t, IsRealSale);
    FilterCount(t, IsRealSale);
    Filter(t, IsRealSale)
  }

  /** Keeps exactly the rows with PROPERTY CLASS below 500. */
  function KeepLowerClasses(t: seq<Row>): (r: seq<Row>)
    ensures |r| <= |t| && IsSubsequence(r, t)
    ensures forall i :: 0 <= i < |r| ==> r[i] in t && r[i].raw.propertyClass < ClassCeiling
    ensures forall i :: 0 <= i < |t| && t[i].raw.propertyClass < ClassCeiling ==> t[i] in r
    ensures forall x :: multiset(r)[x] == if x.raw.propertyClass < ClassCeiling then multiset(t)[x] else 0
  {
    FilterIsSubsequence(t, IsLowerClass);
    FilterCount(t, IsLowerClass);
    Filter(t, IsLowerClass)
  }

  /** The year filter's contract pins its result down: any order-preserving
      selection that keeps every copy of each row dated after 1990 and
      nothing else is `KeepRecentDeeds`. */
  lemma KeepRecentDeedsUnique(t: seq<Row>, r: seq<Row>)
    requires IsSubsequence(r, t)
    requires forall i :: 0 <= i < |r| ==> r[i].deedYear > YearFloor
    requires forall x: Row :: x.deedYear > YearFloor ==> multiset(r)[x] == multiset(t)[x]
    ensures r == KeepRecentDeeds(t)
  {
    FilterUnique(t, IsRecentDeed, r);
  }

  // Stage 8: column selection.

  function ToViewRow(w: Row): ViewRow {
    ViewRow(w.raw.id, w.at.x, w.at.y, w.deedYear, w.raw.propertyClass, w.raw.salePrice,
            w.raw.classDescription, w.raw.address)
  }

  /** Keeps the columns x, y, DEED YEAR, PROPERTY CLASS, SALE PRICE,
      PROP CLASS DESCRIPTION and ADDRESS (and the row label), with their
      values, for every row. */
  function SelectViewColumns(t: seq<Row>): (r: seq<ViewRow>)
    ensures |r| == |t|
    ensures forall i :: 0 <= i < |t| ==>
      && r[i].id == t[i].raw.id
      && r[i].x == t[i].at.x && r[i].y == t[i].at.y
      && r[i].deedYear == t[i].deedYear
      && r[i].propertyClass == t[i].raw.propertyClass
      && r[i].salePrice == t[i].raw.salePrice
      && r[i].classDescription == t[i].raw.classDescription
      && r[i].address == t[i].raw.address
  {
    Map(t, ToViewRow)
  }

  predicate IsLowerClassView(w: ViewRow) {
    w.propertyClass < ClassCeiling
  }

  /** Selecting the view columns and the class filter commute: filtering the
      seven-column rows by PROPERTY CLASS gives the columns of the rows the
      class filter keeps. */
  lemma SelectCommutesWithClassFilter(t: seq<Row>)
    ensures SelectViewColumns(KeepLowerClasses(t)) == Filter(SelectViewColumns(t), IsLowerClassView)
  {
    FilterMap(t, ToViewRow, IsLowerClassView, IsLowerClass);
  }

  /** A row dated `month/day/year rest` gets DEED YEAR `year`. */
  lemma YearOfDatedRow(x: RawRecord, month: string, day: string, year: nat, rest: string)
    requires forall i :: 0 <= i < |month| ==> month[i] != ' '
    requires forall i :: 0 <= i < |day| ==> day[i] != ' '
    requires |rest| == 0 || rest[0] == ' '
    requires x.deedDate == Some(month + "/" + day + "/" + NatToDecimal(year) + rest)
    ensures YearOf(x) == Success(year)
  {
    DeedYearOfDate(month, day, year, rest);
  }

  /** A date with neither a space nor a slash is itself the year field, so
      when `int()` rejects it the ValueError names the whole date. */
  lemma YearOfWholeDate(x: RawRecord)
    requires x.deedDate.Some? && ' ' !in x.deedDate.value && '/' !in x.deedDate.value
    requires ParseInt(x.deedDate.value).None?
    ensures YearOf(x) == Failure(ValueError(x.id, x.deedDate.value))
  {
    WholeDate(x.deedDate.value);
  }

  /** A row dated `not-a-date` makes `int()` raise ValueError. */
  lemma YearOfNotADate(x: RawRecord)
    requires x.deedDate == Some("not-a-date")
    ensures YearOf(x) == Failure(ValueError(x.id, "not-a-date"))
  {
    NotADateRejected();
  }

  /** A row dated `md/field rest` whose year field `int()` rejects raises
      ValueError naming that field, as Python's message does. */
  lemma YearOfBadField(x: RawRecord, md: string, field: string, rest: string)
    requires forall i :: 0 <= i < |md| ==> md[i] != ' '
    requires forall i :: 0 <= i < |field| ==> field[i] != ' ' && field[i] != '/'
    requires |rest| == 0 || rest[0] == ' '
    requires ParseInt(field).None?
    requires x.deedDate == Some(md + "/" + field + rest)
    ensures YearOf(x) == Failure(ValueError(x.id, field))
  {
    var head := md + "/" + field;
    SlashJoinNoSpace(md, field);
    assert x.deedDate.value == head + rest;
    FirstSpaceFieldOf(head, rest);
    LastSlashFieldOf(md, field);
  }

  // The whole of helpers.py's pipeline, stated on the raw table.

  /** The row `df['DEED DATE'][0]` reads once the location filter has run:
      labelled 0 and with a LOCATION. */
  predicate IsLocatedSentinel(x: RawRecord) {
    x.location.Some? && x.id == SentinelLabel
  }

  /** A raw row passes every filter of the pipeline, given the placeholder date. */
  predicate Survives(x: RawRecord, sentinel: Option<string>) {
    && x.location.Some?
    && DiffersFrom(x.deedDate, sentinel)
    && YearOf(x).Success?
    && YearOf(x).value > YearFloor
    && x.salePrice > PriceFloor
  }

  function SurvivesWith(sentinel: Option<string>): RawRecord -> bool {
    x => Survives(x, sentinel)
  }

  function CleanWith(mercator: Projection): RawRecord -> Row {
    x => AddYear(Place(x, mercator))
  }

  /** What a cleaned row satisfies. */
  ghost predicate IsCleanRow(w: Row, mercator: Projection) {
    && w.raw.location.Some?
    && w.at == mercator(w.raw.longitude, w.raw.latitude)
    && w.raw.deedDate.Some?
    && DeedDate.DeedYear(w.raw.deedDate.value) == Some(w.deedYear)
    && w.deedYear > YearFloor
    && w.raw.salePrice > PriceFloor
  }

  /** A surviving raw row becomes a clean row that keeps its date. */
  lemma SurvivorIsClean(x: RawRecord, sentinel: Option<string>, mercator: Projection)
    requires Survives(x, sentinel)
    ensures IsCleanRow(CleanWith(mercator)(x), mercator)
    ensures CleanWith(mercator)(x).raw == x
  {
  }

  /** The reference result: select the surviving raw rows, then add the
      derived columns to each. */
  function Expected(t: seq<RawRecord>, mercator: Projection, sentinel: Option<string>): (r: seq<Row>)
    ensures forall i :: 0 <= i < |r| ==> IsCleanRow(r[i], mercator)
    ensures forall i :: 0 <= i < |r| ==> DiffersFrom(r[i].raw.deedDate, sentinel)
    ensures IsSubsequence(Map(r, RowRaw), t)
  {
    var kept := Filter(t, SurvivesWith(sentinel));
    SurvivorsAreClean(kept, sentinel, mercator);
    CleanedRawIsSubsequence(t, sentinel, mercator);
    Map(kept, CleanWith(mercator))
  }

  /** Cleaning rows that all survive gives clean rows that keep their dates. */
  lemma SurvivorsAreClean(kept: seq<RawRecord>, sentinel: Option<string>, mercator: Projection)
    requires forall i :: 0 <= i < |kept| ==> Survives(kept[i], sentinel)
    ensures forall i :: 0 <= i < |Map(kept, CleanWith(mercator))| ==>
      && IsCleanRow(Map(kept, CleanWith(mercator))[i], mercator)
      && DiffersFrom(Map(kept, CleanWith(mercator))[i].raw.deedDate, sentinel)
  {
    forall i | 0 <= i < |kept| {
      SurvivorIsClean(kept[i], sentinel, mercator);
    }
  }

  /** Cleaning keeps each raw row, so the raw rows of the result are the
      rows that were cleaned. */
  lemma CleanedRawIsSubsequence(t: seq<RawRecord>, sentinel: Option<string>, mercator: Projection)
    ensures IsSubsequence(Map(Map(Filter(t, SurvivesWith(sentinel)), CleanWith(mercator)), RowRaw), t)
  {
    var kept := Filter(t, SurvivesWith(sentinel));
    FilterIsSubsequence(t, SurvivesWith(sentinel));
    MapMap(kept, CleanWith(mercator), RowRaw, (x: RawRecord) => x);
    assert Map(kept, (x: RawRecord) => x) == kept;
  }

  /** The stages up to the placeholder filter, on the raw table. */
  function Dated(t: seq<RawRecord>, mercator: Projection, sentinel: Option<string>): seq<Placed> {
    DropSentinel(Reproject(DropMissingLocation(t), mercator), sentinel)
  }

  /** The label lookup after the location filter finds the first raw row
      labelled 0 that has a LOCATION. */
  lemma SentinelLookup(t: seq<RawRecord>, mercator: Projection)
    ensures var k := FirstIndex(t, IsLocatedSentinel);
      && (SentinelDate(Reproject(DropMissingLocation(t), mercator)).Failure? <==> k.None?)
      && (k.Some? ==> SentinelDate(Reproject(DropMissingLocation(t), mercator)) == Success(t[k.value].deedDate))
  {
    var located := DropMissingLocation(t);
    var placed := Reproject(located, mercator);
    FirstIndexOfMap(located, PlaceWith(mercator), IsSentinelLabel, (x: RawRecord) => x.id == SentinelLabel);
    FirstIndexOfFilter(t, HasLocation, (x: RawRecord) => x.id == SentinelLabel, IsLocatedSentinel);
  }

  /** When the first raw row is labelled 0 and has a LOCATION, the placeholder is its DEED DATE. */
  lemma SentinelFromFirstRow(t: seq<RawRecord>, mercator: Projection)
    requires |t| > 0 && t[0].id == SentinelLabel && t[0].location.Some?
    ensures SentinelDate(Reproject(DropMissingLocation(t), mercator)) == Success(t[0].deedDate)
  {
    SentinelLookup(t, mercator);
  }

  /** A raw row that reaches the year stage. */
  predicate ReachesYearStage(x: RawRecord, sentinel: Option<string>) {
    x.location.Some? && DiffersFrom(x.deedDate, sentinel)
  }

  /** Deriving the years fails exactly when some raw row that reaches the
      year stage has no readable year. */
  lemma DeriveYearsFailsIff(t: seq<RawRecord>, mercator: Projection, sentinel: Option<string>)
    ensures DeriveYears(Dated(t, mercator, sentinel)).Failure? <==>
      exists i :: 0 <= i < |t| && ReachesYearStage(t[i], sentinel) && YearOf(t[i]).Failure?
  {
    if DeriveYears(Dated(t, mercator, sentinel)).Failure? {
      FailingRowIsRaw(t, mercator, sentinel);
    }
    if exists i :: 0 <= i < |t| && ReachesYearStage(t[i], sentinel) && YearOf(t[i]).Failure? {
      var i :| 0 <= i < |t| && ReachesYearStage(t[i], sentinel) && YearOf(t[i]).Failure?;
      RawFailureReachesStage(t, mercator, sentinel, i);
    }
  }

  lemma FailingRowIsRaw(t: seq<RawRecord>, mercator: Projection, sentinel: Option<string>)
    requires DeriveYears(Dated(t, mercator, sentinel)).Failure?
    ensures exists i :: 0 <= i < |t| && ReachesYearStage(t[i], sentinel) && YearOf(t[i]).Failure?
  {
    var dated := Dated(t, mercator, sentinel);
    var k :| 0 <= k < |dated| && YearOf(dated[k].raw) == Failure(DeriveYears(dated).error) &&
      forall j :: 0 <= j < k ==> YearOf(dated[j].raw).Success?;
    DatedRowIsRaw(t, mercator, sentinel, dated[k]);
    var i :| 0 <= i < |t| && t[i] == dated[k].raw;
    assert ReachesYearStage(t[i], sentinel) && YearOf(t[i]).Failure?;
  }

  /** A row that reaches the year stage is a located raw row whose date is
      not the placeholder. */
  lemma DatedRowIsRaw(t: seq<RawRecord>, mercator: Projection, sentinel: Option<string>, x: Placed)
    requires x in Dated(t, mercator, sentinel)
    ensures x.raw in t && ReachesYearStage(x.raw, sentinel)
  {
    var located := DropMissingLocation(t);
    var placed := Reproject(located, mercator);
    assert x in placed;
    var j :| 0 <= j < |placed| && placed[j] == x;
    assert x.raw == located[j];
  }

  lemma RawFailureReachesStage(t: seq<RawRecord>, mercator: Projection, sentinel: Option<string>, i: int)
    requires 0 <= i < |t| && ReachesYearStage(t[i], sentinel) && YearOf(t[i]).Failure?
    ensures DeriveYears(Dated(t, mercator, sentinel)).Failure?
  {
    var located := DropMissingLocation(t);
    var placed := Reproject(located, mercator);
    var dated := Dated(t, mercator, sentinel);
    assert t[i] in located;
    var j :| 0 <= j < |located| && located[j] == t[i];
    assert placed[j].raw == t[i];
    assert KeepsDate(sentinel)(placed[j]);
    assert placed[j] in dated;
    var k :| 0 <= k < |dated| && dated[k] == placed[j];
    assert YearOf(dated[k].raw).Failure?;
  }

  function ReachesWith(sentinel: Option<string>): RawRecord -> bool {
    x => ReachesYearStage(x, sentinel)
  }

  function KeepsRawDate(sentinel: Option<string>): RawRecord -> bool {
    (x: RawRecord) => DiffersFrom(x.deedDate, sentinel)
  }

  /** The rows reaching the year stage are the raw rows that reach it, in
      order, with `x`/`y` added. */
  lemma DatedAsFilter(t: seq<RawRecord>, mercator: Projection, sentinel: Option<string>)
    ensures Dated(t, mercator, sentinel) == Map(Filter(t, ReachesWith(sentinel)), PlaceWith(mercator))
  {
    var located := DropMissingLocation(t);
    FilterMap(located, PlaceWith(mercator), KeepsDate(sentinel), KeepsRawDate(sentinel));
    FilterFuse(t, HasLocation, KeepsRawDate(sentinel), ReachesWith(sentinel));
  }

  function YearAndPriceOk(): Row -> bool {
    (w: Row) => IsRecentDeed(w) && IsRealSale(w)
  }

  function CleanPasses(mercator: Projection): RawRecord -> bool {
    x => YearAndPriceOk()(AddYear(Place(x, mercator)))
  }

  function ParsedAndPasses(mercator: Projection): RawRecord -> bool {
    x => YearOf(x).Success? && CleanPasses(mercator)(x)
  }

  /** Surviving is reaching the year stage, having a readable year, and
      passing the year and price filters once the columns are derived. */
  lemma SurvivesSplit(x: RawRecord, mercator: Projection, sentinel: Option<string>)
    ensures SurvivesWith(sentinel)(x) == (ReachesWith(sentinel)(x) && ParsedAndPasses(mercator)(x))
  {
    var w := AddYear(Place(x, mercator));
    assert CleanPasses(mercator)(x) == YearAndPriceOk()(w);
    assert YearAndPriceOk()(w) == (w.deedYear > YearFloor && w.raw.salePrice > PriceFloor);
    assert w.raw == x;
    if YearOf(x).Success? {
      assert w.deedYear == YearOf(x).value;
    }
  }

  /** Among raw rows whose years all parse, the year and price filters on
      the derived rows select exactly the survivors. */
  lemma SurvivorsAsFilter(t: seq<RawRecord>, mercator: Projection, sentinel: Option<string>)
    requires forall i :: 0 <= i < |Filter(t, ReachesWith(sentinel))| ==>
      YearOf(Filter(t, ReachesWith(sentinel))[i]).Success?
    ensures Filter(Filter(t, ReachesWith(sentinel)), CleanPasses(mercator)) == Filter(t, SurvivesWith(sentinel))
  {
    var mid := Filter(t, ReachesWith(sentinel));
    FilterExt(mid, CleanPasses(mercator), ParsedAndPasses(mercator));
    forall x {
      SurvivesSplit(x, mercator, sentinel);
    }
    FilterFuse(t, ReachesWith(sentinel), ParsedAndPasses(mercator), SurvivesWith(sentinel));
  }

  /** Every surviving raw row appears, with its derived columns, in the reference result. */
  lemma ExpectedKeepsSurvivors(t: seq<RawRecord>, mercator: Projection, sentinel: Option<string>, i: int)
    requires 0 <= i < |t| && Survives(t[i], sentinel)
    ensures AddYear(Place(t[i], mercator)) in Expected(t, mercator, sentinel)
  {
    var kept := Filter(t, SurvivesWith(sentinel));
    assert SurvivesWith(sentinel)(t[i]);
    assert t[i] in kept;
    var j :| 0 <= j < |kept| && kept[j] == t[i];
    assert Expected(t, mercator, sentinel)[j] == CleanWith(mercator)(kept[j]);
  }

  /** When every year parses, the stages of helpers.py produce the reference result. */
  lemma StagesMatchExpected(t: seq<RawRecord>, mercator: Projection, sentinel: Option<string>)
    requires DeriveYears(Dated(t, mercator, sentinel)).Success?
    ensures KeepRealSales(KeepRecentDeeds(DeriveYears(Dated(t, mercator, sentinel)).value))
      == Expected(t, mercator, sentinel)
  {
    var dated := Dated(t, mercator, sentinel);
    var mid := Filter(t, ReachesWith(sentinel));
    var rows := DeriveYears(dated).value;
    DatedAsFilter(t, mercator, sentinel);
    assert rows == Map(dated, AddYear);
    MapMap(mid, PlaceWith(mercator), AddYear, CleanWith(mercator));
    FilterFuse(rows, IsRecentDeed, IsRealSale, YearAndPriceOk());
    FilterMap(mid, CleanWith(mercator), YearAndPriceOk(), CleanPasses(mercator));
    forall i | 0 <= i < |mid|
      ensures YearOf(mid[i]).Success?
    {
      assert dated[i].raw == mid[i];
    }
    SurvivorsAsFilter(t, mercator, sentinel);
  }
}

=== FILE: deed_date.dfy ===
/** The DEED YEAR derivation `int(date.split(' ')[0].split('/')[-1])`:
    take the text before the first single space, then the text after the
    last slash in it, and read that as a Python integer. */
module DeedDate {
  import opened Wrappers
  import opened PyInt

  /** `s.split(' ')[0]`: everything before the first space character. */
  function FirstSpaceField(s: string): (r: string)
    ensures |r| <= |s| && r == s[..|r|]
    ensures forall i :: 0 <= i < |r| ==> r[i] != ' '
    ensures |r| < |s| ==> s[|r|] == ' '
  {
    if |s| == 0 || s[0] == ' ' then "" else [s[0]] + FirstSpaceField(s[1..])
  }

  /** `s.split('/')[-1]`: everything after the last slash. */
  function LastSlashField(s: string): (r: string)
    ensures |r| <= |s| && r == s[|s| - |r|..]
    ensures forall i :: 0 <= i < |r| ==> r[i] != '/'
    ensures |r| < |s| ==> s[|s| - |r| - 1] == '/'
  {
    if |s| == 0 || s[|s| - 1] == '/' then "" else LastSlashField(s[..|s| - 1]) + [s[|s| - 1]]
  }

  /** The year of a deed date, or `None` where `int()` raises. A date with
      neither a space nor a slash is read whole; a date that starts with a
      space has an empty first field, which `int()` rejects. */
  function DeedYear(date: string): (r: Option<int>)
    ensures ' ' !in date && '/' !in date ==> r == ParseInt(date)
    ensures |date| > 0 && date[0] == ' ' ==> r == None
  {
    WholeDate(date);
    ParseInt(LastSlashField(FirstSpaceField(date)))
  }

  /** A date with neither a space nor a slash is its own year field. */
  lemma WholeDate(date: string)
    ensures ' ' !in date && '/' !in date ==> LastSlashField(FirstSpaceField(date)) == date
  {
    if ' ' !in date && '/' !in date {
      FirstSpaceFieldOf(date, "");
      assert date + "" == date;
      LastSlashFieldNoSlash(date);
    }
  }

  /** The first field is exactly the space-free text up to the first space. */
  lemma {:induction false} FirstSpaceFieldOf(a: string, b: string)
    requires forall i :: 0 <= i < |a| ==> a[i] != ' '
    requires |b| == 0 || b[0] == ' '
    ensures FirstSpaceField(a + b) == a
    decreases |a|
  {
    if |a| == 0 {
      assert a + b == b;
    } else {
      var s := a + b;
      assert s[0] == a[0] && s[1..] == a[1..] + b;
      FirstSpaceFieldOf(a[1..], b);
      assert a == [a[0]] + a[1..];
    }
  }

  /** Text without a slash is its own last field. */
  lemma {:induction false} LastSlashFieldNoSlash(b: string)
    requires forall i :: 0 <= i < |b| ==> b[i] != '/'
    ensures LastSlashField(b) == b
    decreases |b|
  {
    if |b| > 0 {
      LastSlashFieldNoSlash(b[..|b| - 1]);
      assert b == b[..|b| - 1] + [b[|b| - 1]];
    }
  }

  /** The last field is exactly the slash-free text after the last slash. */
  lemma {:induction false} LastSlashFieldOf(a: string, b: string)
    requires forall i :: 0 <= i < |b| ==> b[i] != '/'
    ensures LastSlashField(a + "/" + b) == b
    decreases |b|
  {
    var s := a + "/" + b;
    if |b| == 0 {
      assert s[|s| - 1] == '/';
    } else {
      var n := |b| - 1;
      assert s[|s| - 1] == b[n];
      assert s[..|s| - 1] == a + "/" + b[..n];
      LastSlashFieldOf(a, b[..n]);
      assert b == b[..n] + [b[n]];
    }
  }

  /** Joining two space-free texts with a slash leaves no space. */
  lemma SlashJoinNoSpace(a: string, b: string)
    requires forall i :: 0 <= i < |a| ==> a[i] != ' '
    requires forall i :: 0 <= i < |b| ==> b[i] != ' '
    ensures forall i :: 0 <= i < |a + "/" + b| ==> (a + "/" + b)[i] != ' '
  {
    var s := a + "/" + b;
    forall i | 0 <= i < |s| ensures s[i] != ' ' {
      if i > |a| {
        assert s[i] == b[i - |a| - 1];
      }
    }
  }

  /** A date written `month/day/year rest` has DEED YEAR `year`. */
  lemma DeedYearOfDate(month: string, day: string, year: nat, rest: string)
    requires forall i :: 0 <= i < |month| ==> month[i] != ' '
    requires forall i :: 0 <= i < |day| ==> day[i] != ' '
    requires |rest| == 0 || rest[0] == ' '
    ensures DeedYear(month + "/" + day + "/" + NatToDecimal(year) + rest) == Some(year)
  {
    var y := NatToDecimal(year);
    var md := month + "/" + day;
    var head := md + "/" + y;
    SlashJoinNoSpace(month, day);
    SlashJoinNoSpace(md, y);
    var date := month + "/" + day + "/" + y + rest;
    assert date == head + rest;
    FirstSpaceFieldOf(head, rest);
    LastSlashFieldOf(md, y);
    DecimalRoundTrip(year);
    assert ParseInt(LastSlashField(FirstSpaceField(date))) == Some(year);
  }

  /** A placeholder such as `1/1/1900 0:00` reads as 1900. */
  lemma PlaceholderYear()
    ensures DeedYear("1/1/1900 0:00") == Some(1900)
  {
    assert NatToDecimal(1900) == "1900" by {
      assert NatToDecimal(1) == "1";
      assert NatToDecimal(19) == "19";
      assert NatToDecimal(190) == "190";
    }
    assert "1" + "/" + "1" + "/" + "1900" + " 0:00" == "1/1/1900 0:00" by {
    }
    DeedYearOfDate("1", "1", 1900, " 0:00");
  }

  /** A date with no space and no slash that starts with anything but a
      digit, a sign or whitespace (a letter, say) is rejected. */
  lemma WordRejected(s: string)
    requires |s| > 0 && !IsDigit(s[0]) && s[0] != '+' && s[0] != '-' && !IsSpace(s[0])
    requires !IsSpace(s[|s| - 1])
    requires ' ' !in s && '/' !in s
    ensures DeedYear(s) == None
  {
    StripUnpadded(s);
    assert !IsDigitGroups(s);
    assert !IsIntLiteral(s);
    assert ParseInt(s) == None;
  }

  /** `not-a-date` is its own year field, and `int()` rejects it. */
  lemma NotADateRejected()
    ensures LastSlashField(FirstSpaceField("not-a-date")) == "not-a-date"
    ensures DeedYear("not-a-date") == None
  {
    WordRejected("not-a-date");
    WholeDate("not-a-date");
  }

  /** A bare year with no month or day is accepted as well. */
  lemma BareYearAccepted(year: nat)
    ensures DeedYear(NatToDecimal(year)) == Some(year)
  {
    var y := NatToDecimal(year);
    FirstSpaceFieldOf(y, "");
    assert y + "" == y;
    LastSlashFieldNoSlash(y);
    DecimalRoundTrip(year);
  }
}

=== FILE: helpers.dfy ===
/** `process_data` of helpers.py: the cleaning pipeline without the class
    filter and without the column selection, so every raw column is kept
    and `x`, `y` and DEED YEAR are added. */
module Helpers {
  import opened Wrappers
  import opened Seqs
  import opened Records
  import opened Cleaning

  /** The pipeline on an already loaded table. The run either aborts with
      the first exception raised or yields the whole cleaned table. */
  function ProcessData(t: seq<RawRecord>, mercator: Projection): (r: Result<seq<Row>, Error>)
    ensures r.Success? ==> forall i :: 0 <= i < |r.value| ==> IsCleanRow(r.value[i], mercator)
    ensures r.Success? ==> IsSubsequence(Map(r.value, RowRaw), t)
    ensures FirstIndex(t, IsLocatedSentinel).None? ==> r == Failure(KeyError(SentinelLabel))
    ensures FirstIndex(t, IsLocatedSentinel).Some? ==>
      var sentinel := t[FirstIndex(t, IsLocatedSentinel).value].deedDate;
      && (r.Failure? <==>
            exists i :: 0 <= i < |t| && ReachesYearStage(t[i], sentinel) && YearOf(t[i]).Failure?)
      && (r.Success? ==> r.value == Expected(t, mercator, sentinel))
  {
    var located := DropMissingLocation(t);
    var placed := Reproject(located, mercator);
    SentinelLookup(t, mercator);
    var sentinel :- SentinelDate(placed);
    DeriveYearsFailsIff(t, mercator, sentinel);
    var rows :- DeriveYears(DropSentinel(placed, sentinel));
    StagesMatchExpected(t, mercator, sentinel);
    Success(KeepRealSales(KeepRecentDeeds(rows)))
  }

  /** Every raw row that passes the location, placeholder, year and price
      filters is in the output, whatever its PROPERTY CLASS. */
  lemma SurvivorsKept(t: seq<RawRecord>, mercator: Projection, i: int)
    requires 0 <= i < |t|
    requires FirstIndex(t, IsLocatedSentinel).Some?
    requires Survives(t[i], t[FirstIndex(t, IsLocatedSentinel).value].deedDate)
    requires ProcessData(t, mercator).Success?
    ensures AddYear(Place(t[i], mercator)) in ProcessData(t, mercator).value
  {
    var sentinel := t[FirstIndex(t, IsLocatedSentinel).value].deedDate;
    assert ProcessData(t, mercator).value == Expected(t, mercator, sentinel);
    ExpectedKeepsSurvivors(t, mercator, sentinel, i);
  }

  /** The row the placeholder is read from is itself dropped, unless its
      DEED DATE is missing (a missing value is unequal even to itself). */
  lemma SentinelRowDropped(t: seq<RawRecord>, mercator: Projection)
    requires FirstIndex(t, IsLocatedSentinel).Some?
    requires t[FirstIndex(t, IsLocatedSentinel).value].deedDate.Some?
    requires ProcessData(t, mercator).Success?
    ensures forall w :: w in ProcessData(t, mercator).value ==>
      w.raw.deedDate != t[FirstIndex(t, IsLocatedSentinel).value].deedDate
  {
  }
}

=== FILE: py_int.dfy ===
/** Python's `int(str)` on the text of a DEED DATE's year field: surrounding
    whitespace is stripped, an optional sign is accepted, and the digits may
    be grouped by single underscores. Anything else raises ValueError,
    modelled here as `None`. */
module PyInt {
  import opened Wrappers

  predicate IsDigit(c: char) {
    '0' <= c <= '9'
  }

  function DigitValue(c: char): (d: nat)
    requires IsDigit(c)
    ensures d < 10
  {
    (c as int) - ('0' as int)
  }

  function DigitChar(d: nat): (c: char)
    requires d < 10
    ensures IsDigit(c) && DigitValue(c) == d
  {
    ('0' as int + d) as char
  }

  /** The ASCII characters `int()` strips as whitespace: tab through carriage
      return, and the space. The separators 0x1C to 0x1F, which
      `str.isspace()` accepts, are not stripped and make `int()` raise. */
  predicate IsSpace(c: char) {
    '\t' <= c <= '\r' || c == ' '
  }

  /** Drops the leading whitespace. */
  function TrimStart(s: string): (r: string)
    ensures |r| <= |s| && r == s[|s| - |r|..]
    ensures |r| > 0 ==> !IsSpace(r[0])
    ensures forall i :: 0 <= i < |s| - |r| ==> IsSpace(s[i])
  {
    if |s| > 0 && IsSpace(s[0]) then TrimStart(s[1..]) else s
  }

  /** Drops the trailing whitespace. */
  function TrimEnd(s: string): (r: string)
    ensures |r| <= |s| && r == s[..|r|]
    ensures |r| > 0 ==> !IsSpace(r[|r| - 1])
    ensures forall i :: |r| <= i < |s| ==> IsSpace(s[i])
  {
    if |s| > 0 && IsSpace(s[|s| - 1]) then TrimEnd(s[..|s| - 1]) else s
  }

  function Strip(s: string): string {
    TrimEnd(TrimStart(s))
  }

  /** One or more decimal digits, where single underscores may separate
      two digits. */
  predicate IsDigitGroups(s: string) {
    && |s| > 0
    && IsDigit(s[0])
    && IsDigit(s[|s| - 1])
    && (forall i :: 0 <= i < |s| ==> IsDigit(s[i]) || s[i] == '_')
    && (forall i :: 0 <= i < |s| - 1 ==> s[i] == '_' ==> s[i + 1] != '_')
  }

  /** The text `int()` accepts once stripped: digit groups, optionally signed. */
  predicate IsIntLiteral(t: string) {
    IsDigitGroups(t) || (|t| > 0 && (t[0] == '+' || t[0] == '-') && IsDigitGroups(t[1..]))
  }

  /** The number the digits spell, underscores ignored. */
  function DigitsValue(s: string): nat
    requires forall i :: 0 <= i < |s| ==> IsDigit(s[i]) || s[i] == '_'
  {
    if |s| == 0 then 0
    else if s[|s| - 1] == '_' then DigitsValue(s[..|s| - 1])
    else DigitsValue(s[..|s| - 1]) * 10 + DigitValue(s[|s| - 1])
  }

  function ParseInt(s: string): (r: Option<int>)
    ensures r.Some? <==> IsIntLiteral(Strip(s))
  {
    ParseLiteral(Strip(s))
  }

  /** Reads an already stripped literal. */
  function ParseLiteral(t: string): (r: Option<int>)
    ensures r.Some? <==> IsIntLiteral(t)
  {
    if |t| > 0 && (t[0] == '+' || t[0] == '-') then
      if IsDigitGroups(t[1..]) then
        var v: int := DigitsValue(t[1..]);
        Some(if t[0] == '-' then -v else v)
      else None
    else if IsDigitGroups(t) then Some(DigitsValue(t))
    else None
  }

  /** The canonical decimal spelling of `n`, as `str(n)` writes it. */
  function NatToDecimal(n: nat): (r: string)
    ensures |r| > 0
    ensures forall i :: 0 <= i < |r| ==> IsDigit(r[i])
    ensures |r| > 1 ==> r[0] != '0'
  {
    if n < 10 then [DigitChar(n)] else NatToDecimal(n / 10) + [DigitChar(n % 10)]
  }

  function IntToDecimal(n: int): (r: string)
  {
    if n < 0 then "-" + NatToDecimal(-n) else NatToDecimal(n)
  }

  lemma {:induction false} DigitsValueOfDecimal(n: nat)
    ensures DigitsValue(NatToDecimal(n)) == n
    decreases n
  {
    if n >= 10 {
      var s := NatToDecimal(n);
      DigitsValueOfDecimal(n / 10);
      assert s[..|s| - 1] == NatToDecimal(n / 10);
    }
  }

  /** Text without whitespace at either end is left alone by `Strip`. */
  lemma StripUnpadded(s: string)
    requires |s| == 0 || (!IsSpace(s[0]) && !IsSpace(s[|s| - 1]))
    ensures Strip(s) == s
  {
  }

  /** A leading information separator (0x1C to 0x1F) is not whitespace to
      `int()`, so a year preceded by one is rejected. */
  lemma SeparatorNotStripped(sep: char, digits: string)
    requires '\U{1C}' <= sep <= '\U{1F}'
    ensures ParseInt([sep] + digits) == None
  {
    var s := [sep] + digits;
    assert !IsSpace(s[0]);
    assert Strip(s) == TrimEnd(s);
    var t := TrimEnd(s);
    assert |t| > 0 ==> t[0] == sep;
    assert !IsIntLiteral(t);
  }

  /** A canonical decimal spelling is a valid literal whose value is `n`. */
  lemma NatLiteral(n: nat)
    ensures IsDigitGroups(NatToDecimal(n))
    ensures ParseLiteral(NatToDecimal(n)) == Some(n)
  {
    var d := NatToDecimal(n);
    DigitsValueOfDecimal(n);
    assert IsDigitGroups(d);
  }

  /** `int(str(n)) == n` for every integer (Python's limit on the number
      of digits `int()` accepts is not modelled). */
  lemma DecimalRoundTrip(n: int)
    ensures ParseInt(IntToDecimal(n)) == Some(n)
  {
    var s := IntToDecimal(n);
    if n < 0 {
      var d := NatToDecimal(-n);
      NatLiteral(-n);
      assert s[0] == '-' && s[1..] == d;
      StripUnpadded(s);
      assert ParseLiteral(s) == Some(0 - DigitsValue(d) as int);
    } else {
      NatLiteral(n);
      StripUnpadded(s);
    }
  }

  /** Surrounding whitespace does not change what `int()` reads. */
  lemma ParseIgnoresPadding(pre: string, s: string, post: string)
    requires forall i :: 0 <= i < |pre| ==> IsSpace(pre[i])
    requires forall i :: 0 <= i < |post| ==> IsSpace(post[i])
    ensures ParseInt(pre + s + post) == ParseInt(s)
  {
    StripPadding(pre, s, post);
  }

  lemma StripPadding(pre: string, s: string, post: string)
    requires forall i :: 0 <= i < |pre| ==> IsSpace(pre[i])
    requires forall i :: 0 <= i < |post| ==> IsSpace(post[i])
    ensures Strip(pre + s + post) == Strip(s)
  {
    calc {
      Strip(pre + s + post);
      { assert pre + s + post == pre + (s + post); TrimStartPadding(pre, s + post); }
      TrimEnd(TrimStart(s + post));
      { TrimStartKeepsTail(s, post); }
      TrimEnd(TrimStart(s) + post);
      { TrimEndPadding(TrimStart(s), post); }
      Strip(s);
    }
  }

  lemma {:induction false} TrimStartPadding(pre: string, s: string)
    requires forall i :: 0 <= i < |pre| ==> IsSpace(pre[i])
    ensures TrimStart(pre + s) == TrimStart(s)
    decreases |pre|
  {
    if |pre| > 0 {
      var t := pre + s;
      assert t[0] == pre[0] && IsSpace(t[0]);
      assert t[1..] == pre[1..] + s;
      assert TrimStart(t) == TrimStart(t[1..]);
      TrimStartPadding(pre[1..], s);
    } else {
      assert pre + s == s;
    }
  }

  lemma {:induction false} TrimEndPadding(s: string, post: string)
    requires forall i :: 0 <= i < |post| ==> IsSpace(post[i])
    ensures TrimEnd(s + post) == TrimEnd(s)
    decreases |post|
  {
    if |post| > 0 {
      var n := |post| - 1;
      var t := s + post;
      assert t[|t| - 1] == post[n] && IsSpace(t[|t| - 1]);
      assert t[..|t| - 1] == s + post[..n];
      assert TrimEnd(t) == TrimEnd(t[..|t| - 1]);
      TrimEndPadding(s, post[..n]);
    } else {
      assert s + post == s;
    }
  }

  /** Trimming the front of `s + post` reaches into the whitespace `post`
      only when `s` is all whitespace, and then trimming the end removes the rest. */
  lemma {:induction false} TrimStartKeepsTail(s: string, post: string)
    requires forall i :: 0 <= i < |post| ==> IsSpace(post[i])
    ensures TrimEnd(TrimStart(s + post)) == TrimEnd(TrimStart(s) + post)
    decreases |s|
  {
    if |s| > 0 && IsSpace(s[0]) {
      var t := s + post;
      assert t[0] == s[0];
      assert t[1..] == s[1..] + post;
      TrimStartKeepsTail(s[1..], post);
    } else if |s| == 0 {
      assert s + post == post;
      var u := TrimStart(post);
      TrimEndAllSpace(post);
    } else {
      var t := s + post;
      assert t[0] == s[0];
    }
  }

  lemma {:induction false} TrimEndAllSpace(s: string)
    requires forall i :: 0 <= i < |s| ==> IsSpace(s[i])
    ensures TrimEnd(s) == []
    decreases |s|
  {
    if |s| > 0 {
      TrimEndAllSpace(s[..|s| - 1]);
    }
  }

  // The value of a literal: `int()` reads the number whose `str()` is the
  // literal with its `+`, its underscores and its leading zeros removed.

  predicate AllDigits(s: string) {
    forall i :: 0 <= i < |s| ==> IsDigit(s[i])
  }

  /** The digits of a digit group, underscores removed. */
  function DigitsOnly(s: string): (r: string)
    requires forall i :: 0 <= i < |s| ==> IsDigit(s[i]) || s[i] == '_'
    ensures AllDigits(r)
    ensures |s| > 0 && IsDigit(s[0]) ==> |r| > 0 && r[0] == s[0]
  {
    if |s| == 0 then ""
    else if s[|s| - 1] == '_' then DigitsOnly(s[..|s| - 1])
    else DigitsOnly(s[..|s| - 1]) + [s[|s| - 1]]
  }

  /** Leading zeros removed, keeping at least one digit. */
  function DropLeadingZeros(s: string): (r: string)
    requires |s| > 0 && AllDigits(s)
    ensures |r| > 0 && AllDigits(r)
    ensures |r| > 1 ==> r[0] != '0'
  {
    if |s| > 1 && s[0] == '0' then DropLeadingZeros(s[1..]) else s
  }

  /** The spelling `str()` gives the number the literal `t` denotes: no `+`,
      no underscores, no leading zeros, and no sign on zero. */
  function Canonical(t: string): string
    requires IsIntLiteral(t)
  {
    if IsDigitGroups(t) then DropLeadingZeros(DigitsOnly(t))
    else
      var m := DropLeadingZeros(DigitsOnly(t[1..]));
      if t[0] == '-' && m != "0" then "-" + m else m
  }

  lemma {:induction false} DigitsOnlyValue(s: string)
    requires forall i :: 0 <= i < |s| ==> IsDigit(s[i]) || s[i] == '_'
    ensures DigitsValue(DigitsOnly(s)) == DigitsValue(s)
    decreases |s|
  {
    if |s| > 0 {
      var p := s[..|s| - 1];
      DigitsOnlyValue(p);
      if s[|s| - 1] != '_' {
        var d := DigitsOnly(p) + [s[|s| - 1]];
        assert d[..|d| - 1] == DigitsOnly(p);
      }
    }
  }

  /** A leading zero adds nothing to the value. */
  lemma {:induction false} LeadingZeroValue(s: string)
    requires AllDigits(s)
    ensures DigitsValue("0" + s) == DigitsValue(s)
    decreases |s|
  {
    var z := "0" + s;
    if |s| == 0 {
      assert z[..0] == "";
    } else {
      assert z[..|z| - 1] == "0" + s[..|s| - 1];
      LeadingZeroValue(s[..|s| - 1]);
    }
  }

  lemma {:induction false} DropLeadingZerosValue(s: string)
    requires |s| > 0 && AllDigits(s)
    ensures DigitsValue(DropLeadingZeros(s)) == DigitsValue(s)
    decreases |s|
  {
    if |s| > 1 && s[0] == '0' {
      DropLeadingZerosValue(s[1..]);
      assert s == "0" + s[1..];
      LeadingZeroValue(s[1..]);
    }
  }

  /** Digits without a leading zero spell a positive number. */
  lemma {:induction false} NonZeroLeadValue(s: string)
    requires |s| > 0 && AllDigits(s) && s[0] != '0'
    ensures DigitsValue(s) > 0
    decreases |s|
  {
    if |s| > 1 {
      NonZeroLeadValue(s[..|s| - 1]);
    } else {
      assert s[..0] == "";
    }
  }

  /** Digits without a leading zero are the canonical spelling of their value. */
  lemma {:induction false} DecimalOfDigits(s: string)
    requires |s| > 0 && AllDigits(s)
    requires |s| > 1 ==> s[0] != '0'
    ensures NatToDecimal(DigitsValue(s)) == s
    decreases |s|
  {
    var n := |s| - 1;
    var p := s[..n];
    var c := s[n];
    if n == 0 {
      assert p == "";
      assert DigitChar(DigitValue(c)) == c;
      assert s == [c];
    } else {
      DecimalOfDigits(p);
      NonZeroLeadValue(p);
      var v := DigitsValue(s);
      assert v == DigitsValue(p) * 10 + DigitValue(c);
      assert v / 10 == DigitsValue(p) && v % 10 == DigitValue(c);
      assert DigitChar(DigitValue(c)) == c;
      assert s == p + [c];
    }
  }

  /** The canonical spelling of the digits of a digit group and its value. */
  lemma GroupsCanonical(t: string)
    requires IsDigitGroups(t)
    ensures NatToDecimal(DigitsValue(t)) == DropLeadingZeros(DigitsOnly(t))
  {
    var m := DropLeadingZeros(DigitsOnly(t));
    DigitsOnlyValue(t);
    DropLeadingZerosValue(DigitsOnly(t));
    DecimalOfDigits(m);
  }

  /** `str(int(s)) == Canonical(s.strip())`: the value `int()` returns is the
      number whose decimal spelling is the stripped literal without its `+`,
      its underscores and its leading zeros. */
  lemma ParseValue(s: string)
    requires ParseInt(s).Some?
    ensures IntToDecimal(ParseInt(s).value) == Canonical(Strip(s))
  {
    var t := Strip(s);
    if IsDigitGroups(t) {
      GroupsCanonical(t);
    } else {
      var u := DigitsValue(t[1..]);
      var m := DropLeadingZeros(DigitsOnly(t[1..]));
      GroupsCanonical(t[1..]);
      assert NatToDecimal(u) == m;
      if u == 0 {
        assert m == [DigitChar(0)];
      }
    }
  }
}

=== FILE: records.dfy ===
/** The rows of the property-assessment table, at each point of the
    cleaning pipeline. A pandas missing value (NaN) in a text column is
    `None`. */
module Records {
  import opened Wrappers

  /** Web Mercator coordinates in metres. */
  datatype Point = Point(x: real, y: real)

  /** The WGS84-to-Web-Mercator projection, taking (longitude, latitude) in
      degrees. Its floating-point formula is supplied by the caller. */
  type Projection = (real, real) -> Point

  /** One row of the raw extract. `id` is the row label read from the first
      column; `otherColumns` holds the columns the pipeline never inspects. */
  datatype RawRecord = RawRecord(
    id: int,
    location: Option<string>,
    latitude: real,
    longitude: real,
    deedDate: Option<string>,
    salePrice: int,
    propertyClass: int,
    classDescription: string,
    address: string,
    otherColumns: seq<string>)

  /** A raw row once the `x`/`y` columns have been added. */
  datatype Placed = Placed(raw: RawRecord, at: Point)

  /** A raw row with `x`/`y` and the derived DEED YEAR column. */
  datatype Row = Row(raw: RawRecord, at: Point, deedYear: int)

  /** The seven columns kept for the map view, plus the row label. */
  datatype ViewRow = ViewRow(
    id: int,
    x: real,
    y: real,
    deedYear: int,
    propertyClass: int,
    salePrice: int,
    classDescription: string,
    address: string)

  /** The exceptions that abort a cleaning run. */
  datatype Error =
    | KeyError(key: int)                // no row carries the label looked up
    | AttributeError(id: int)           // a missing DEED DATE has no `split`
    | ValueError(id: int, literal: string) // `int()` rejects this year field

  function PlacedRaw(p: Placed): RawRecord {
    p.raw
  }

  function RowRaw(w: Row): RawRecord {
    w.raw
  }
}

=== FILE: seqs.dfy ===
/** Order-preserving operations on tables held as sequences: the row filter
    that every pandas boolean-mask selection `df.loc[mask, :]` performs, the
    column-wise map that adds or drops columns, and the facts about them
    that the cleaning stages rely on. */
module Seqs {
  import opened Wrappers

  /** `a` is obtained from `b` by deleting zero or more elements, keeping
      the survivors in their original relative order. */
  ghost predicate IsSubsequence<T>(a: seq<T>, b: seq<T>)
    decreases |b|
  {
    if |b| == 0 then |a| == 0
    else IsSubsequence(a, b[1..]) || (|a| > 0 && a[0] == b[0] && IsSubsequence(a[1..], b[1..]))
  }

  /** The rows of `s` that satisfy `p`, in order. */
  function Filter<T>(s: seq<T>, p: T -> bool): (r: seq<T>)
    ensures |r| <= |s|
    ensures forall i :: 0 <= i < |r| ==> p(r[i])
    ensures forall i :: 0 <= i < |r| ==> r[i] in s
    ensures forall i :: 0 <= i < |s| && p(s[i]) ==> s[i] in r
  {
    if |s| == 0 then []
    else if p(s[0]) then [s[0]] + Filter(s[1..], p)
    else Filter(s[1..], p)
  }

  /** Applies `f` to every row, keeping positions. */
  function Map<T, U>(s: seq<T>, f: T -> U): (r: seq<U>)
    ensures |r| == |s|
    ensures forall i :: 0 <= i < |s| ==> r[i] == f(s[i])
  {
    seq(|s|, i requires 0 <= i < |s| => f(s[i]))
  }

  /** A subsequence never has more copies of a row than the original. */
  lemma {:induction false} SubsequenceCount<T>(a: seq<T>, b: seq<T>, x: T)
    requires IsSubsequence(a, b)
    ensures multiset(a)[x] <= multiset(b)[x]
    decreases |b|
  {
    if |b| > 0 {
      assert b == [b[0]] + b[1..];
      if IsSubsequence(a, b[1..]) {
        SubsequenceCount(a, b[1..], x);
      } else {
        assert a == [a[0]] + a[1..];
        SubsequenceCount(a[1..], b[1..], x);
      }
    }
  }

  /** Filtering only deletes rows: the result is a subsequence of the input. */
  lemma {:induction false} FilterIsSubsequence<T>(s: seq<T>, p: T -> bool)
    ensures IsSubsequence(Filter(s, p), s)
    decreases |s|
  {
    if |s| > 0 {
      FilterIsSubsequence(s[1..], p);
      if p(s[0]) {
        var r := Filter(s, p);
        assert r[0] == s[0] && r[1..] == Filter(s[1..], p);
      }
    }
  }

  /** Filtering keeps every copy of a row that satisfies `p` and no copy of one that does not. */
  lemma FilterCount<T>(s: seq<T>, p: T -> bool)
    ensures forall x :: multiset(Filter(s, p))[x] == if p(x) then multiset(s)[x] else 0
  {
    forall x {
      FilterCountOf(s, p, x);
    }
  }

  lemma {:induction false} FilterCountOf<T>(s: seq<T>, p: T -> bool, x: T)
    ensures multiset(Filter(s, p))[x] == if p(x) then multiset(s)[x] else 0
    decreases |s|
  {
    if |s| > 0 {
      FilterCountOf(s[1..], p, x);
      assert s == [s[0]] + s[1..];
      if p(s[0]) {
        assert Filter(s, p) == [s[0]] + Filter(s[1..], p);
      }
    }
  }

  /** `Filter` is the only order-preserving selection that keeps exactly the
      copies of the rows satisfying `p`. */
  lemma {:induction false} FilterUnique<T>(s: seq<T>, p: T -> bool, r: seq<T>)
    requires IsSubsequence(r, s)
    requires forall i :: 0 <= i < |r| ==> p(r[i])
    requires forall x :: p(x) ==> multiset(r)[x] == multiset(s)[x]
    ensures r == Filter(s, p)
    decreases |s|
  {
    if |s| == 0 {
    } else {
      var h := s[0];
      assert s == [h] + s[1..];
      if IsSubsequence(r, s[1..]) && !(|r| > 0 && r[0] == h && IsSubsequence(r[1..], s[1..])) {
        if p(h) {
          SubsequenceCount(r, s[1..], h);
          assert false;
        }
        forall x | p(x)
          ensures multiset(r)[x] == multiset(s[1..])[x]
        {
          assert multiset(s)[x] == multiset(s[1..])[x] + (if x == h then 1 else 0);
          if x == h {
            assert false;
          }
        }
        FilterUnique(s[1..], p, r);
      } else {
        assert |r| > 0 && r[0] == h && IsSubsequence(r[1..], s[1..]);
        assert p(h);
        assert r == [h] + r[1..];
        forall x | p(x)
          ensures multiset(r[1..])[x] == multiset(s[1..])[x]
        {
          assert multiset(r)[x] == multiset(r[1..])[x] + (if x == h then 1 else 0);
          assert multiset(s)[x] == multiset(s[1..])[x] + (if x == h then 1 else 0);
        }
        FilterUnique(s[1..], p, r[1..]);
      }
    }
  }

  /** Filters whose predicates agree on every row of `s` select the same rows. */
  lemma {:induction false} FilterExt<T>(s: seq<T>, p: T -> bool, q: T -> bool)
    requires forall i :: 0 <= i < |s| ==> p(s[i]) == q(s[i])
    ensures Filter(s, p) == Filter(s, q)
    decreases |s|
  {
    if |s| > 0 {
      FilterExt(s[1..], p, q);
    }
  }

  /** Two successive filters are one filter by the conjunction. */
  lemma {:induction false} FilterFuse<T>(s: seq<T>, p: T -> bool, q: T -> bool, pq: T -> bool)
    requires forall x :: pq(x) == (p(x) && q(x))
    ensures Filter(Filter(s, p), q) == Filter(s, pq)
    decreases |s|
  {
    if |s| > 0 {
      FilterFuse(s[1..], p, q, pq);
      if p(s[0]) {
        assert Filter(s, p) == [s[0]] + Filter(s[1..], p);
        assert Filter(s, p)[1..] == Filter(s[1..], p);
      }
    }
  }

  /** Three successive filters are one filter by the conjunction, so
      independent filters may be applied in any order. */
  lemma FilterThree<T>(s: seq<T>, p: T -> bool, q: T -> bool, r: T -> bool, pqr: T -> bool)
    requires forall x :: pqr(x) == (p(x) && q(x) && r(x))
    ensures Filter(Filter(Filter(s, p), q), r) == Filter(s, pqr)
  {
    var pq := x => p(x) && q(x);
    FilterFuse(s, p, q, pq);
    FilterFuse(s, pq, r, pqr);
  }

  /** A filter applied only when `skip` is false is one filter whose
      predicate admits everything `p` admits when `skip` holds. */
  lemma FilterUnless<T>(s: seq<T>, p: T -> bool, skip: bool, q: T -> bool, pq: T -> bool)
    requires forall x :: pq(x) == (p(x) && (skip || q(x)))
    ensures (if skip then Filter(s, p) else Filter(Filter(s, p), q)) == Filter(s, pq)
  {
    if skip {
      FilterExt(s, p, pq);
    } else {
      FilterFuse(s, p, q, pq);
    }
  }

  /** Selecting after a map is mapping after selecting by the composed predicate. */
  lemma {:induction false} FilterMap<T, U>(s: seq<T>, f: T -> U, p: U -> bool, pf: T -> bool)
    requires forall x :: pf(x) == p(f(x))
    ensures Filter(Map(s, f), p) == Map(Filter(s, pf), f)
    decreases |s|
  {
    if |s| > 0 {
      MapTail(s, f);
      FilterMap(s[1..], f, p, pf);
      if pf(s[0]) {
        MapCons(s[0], Filter(s[1..], pf), f);
      }
    }
  }

  /** Mapping a non-empty sequence maps its head and its tail. */
  lemma MapTail<T, U>(s: seq<T>, f: T -> U)
    requires |s| > 0
    ensures Map(s, f)[0] == f(s[0]) && Map(s, f)[1..] == Map(s[1..], f)
  {
  }

  /** Mapping a sequence built from a head and a tail. */
  lemma MapCons<T, U>(x: T, t: seq<T>, f: T -> U)
    ensures Map([x] + t, f) == [f(x)] + Map(t, f)
  {
  }

  /** Two successive maps are one map by the composition. */
  lemma MapMap<T, U, V>(s: seq<T>, f: T -> U, g: U -> V, gf: T -> V)
    requires forall x :: gf(x) == g(f(x))
    ensures Map(Map(s, f), g) == Map(s, gf)
  {
  }

  /** The position of the first row satisfying `p`, if any. */
  function FirstIndex<T>(s: seq<T>, p: T -> bool): (r: Option<nat>)
    ensures r.Some? ==> r.value < |s| && p(s[r.value])
    ensures r.Some? ==> forall j :: 0 <= j < r.value ==> !p(s[j])
    ensures r.None? ==> forall j :: 0 <= j < |s| ==> !p(s[j])
  {
    if |s| == 0 then None
    else if p(s[0]) then Some(0)
    else match FirstIndex(s[1..], p)
      case None => None
      case Some(i) => Some(i + 1)
  }

  /** The first row satisfying `p` among those a filter kept is the first
      row of the whole sequence satisfying both predicates. */
  lemma {:induction false} FirstIndexOfFilter<T>(s: seq<T>, q: T -> bool, p: T -> bool, qp: T -> bool)
    requires forall x :: qp(x) == (q(x) && p(x))
    ensures FirstIndex(Filter(s, q), p).Some? <==> FirstIndex(s, qp).Some?
    ensures FirstIndex(Filter(s, q), p).Some? ==>
      Filter(s, q)[FirstIndex(Filter(s, q), p).value] == s[FirstIndex(s, qp).value]
    decreases |s|
  {
    if |s| > 0 {
      var f, g := Filter(s, q), Filter(s[1..], q);
      FirstIndexOfFilter(s[1..], q, p, qp);
      if !q(s[0]) {
        assert f == g;
        FirstIndexSkip(s, qp);
      } else if p(s[0]) {
        assert f[0] == s[0];
        assert qp(s[0]);
      } else {
        assert f == [s[0]] + g;
        FirstIndexSkip(f, p);
        FirstIndexSkip(s, qp);
      }
    }
  }

  /** Past a head that fails `p`, the first match is one further along in
      the tail. */
  lemma FirstIndexSkip<T>(s: seq<T>, p: T -> bool)
    requires |s| > 0 && !p(s[0])
    ensures FirstIndex(s, p).Some? <==> FirstIndex(s[1..], p).Some?
    ensures FirstIndex(s, p).Some? ==>
      FirstIndex(s, p).value == FirstIndex(s[1..], p).value + 1 &&
      s[FirstIndex(s, p).value] == s[1..][FirstIndex(s[1..], p).value]
  {
  }

  /** Looking a row up after a map finds it at the same position. */
  lemma {:induction false} FirstIndexOfMap<T, U>(s: seq<T>, f: T -> U, p: U -> bool, pf: T -> bool)
    requires forall x :: pf(x) == p(f(x))
    ensures FirstIndex(Map(s, f), p) == FirstIndex(s, pf)
    decreases |s|
  {
    if |s| > 0 {
      var m := Map(s, f);
      assert m[0] == f(s[0]) && m[1..] == Map(s[1..], f);
      FirstIndexOfMap(s[1..], f, p, pf);
    }
  }
}

=== FILE: util.dfy ===
/** `process_data` of utils/util.py: the cleaning pipeline followed by the
    PROPERTY CLASS filter and the selection of the seven view columns. */
module Util {
  import opened Wrappers
  import opened Seqs
  import opened Records
  import opened Cleaning
  import Helpers

  /** The pipeline on an already loaded table. */
  function ProcessData(t: seq<RawRecord>, mercator: Projection): (r: Result<seq<ViewRow>, Error>)
    ensures r.Success? ==> |r.value| <= |t|
    ensures r.Success? ==> forall i :: 0 <= i < |r.value| ==>
      && r.value[i].deedYear > YearFloor
      && r.value[i].salePrice > PriceFloor
      && r.value[i].propertyClass < ClassCeiling
  {
    var located := DropMissingLocation(t);
    var placed := Reproject(located, mercator);
    var sentinel :- SentinelDate(placed);
    var rows :- DeriveYears(DropSentinel(placed, sentinel));
    var kept := KeepLowerClasses(KeepRealSales(KeepRecentDeeds(rows)));
    FilterOrderIrrelevant(rows);
    Success(SelectViewColumns(kept))
  }

  /** On the same table, utils/util.py yields exactly helpers.py's result
      with the class filter and the column selection applied, and fails
      exactly when helpers.py fails, with the same exception. */
  lemma AgreesWithHelpers(t: seq<RawRecord>, mercator: Projection)
    ensures Helpers.ProcessData(t, mercator).Failure? ==>
      ProcessData(t, mercator) == Failure(Helpers.ProcessData(t, mercator).error)
    ensures Helpers.ProcessData(t, mercator).Success? ==>
      ProcessData(t, mercator) == Success(SelectViewColumns(KeepLowerClasses(Helpers.ProcessData(t, mercator).value)))
  {
    var placed := Reproject(DropMissingLocation(t), mercator);
    match SentinelDate(placed)
    case Failure(e) =>
      assert Helpers.ProcessData(t, mercator) == Failure(e);
    case Success(sentinel) =>
      match DeriveYears(DropSentinel(placed, sentinel))
      case Failure(e) =>
        assert Helpers.ProcessData(t, mercator) == Failure(e);
      case Success(rows) =>
        assert Helpers.ProcessData(t, mercator) == Success(KeepRealSales(KeepRecentDeeds(rows)));
  }

  /** The year, price and class filters are independent: each of the six
      orders of applying them selects the same rows as the one combined filter. */
  lemma FilterOrderIrrelevant(rows: seq<Row>)
    ensures var all := Filter(rows, (w: Row) => IsRecentDeed(w) && IsRealSale(w) && IsLowerClass(w));
      && KeepLowerClasses(KeepRealSales(KeepRecentDeeds(rows))) == all
      && KeepRealSales(KeepLowerClasses(KeepRecentDeeds(rows))) == all
      && KeepLowerClasses(KeepRecentDeeds(KeepRealSales(rows))) == all
      && KeepRecentDeeds(KeepLowerClasses(KeepRealSales(rows))) == all
      && KeepRealSales(KeepRecentDeeds(KeepLowerClasses(rows))) == all
      && KeepRecentDeeds(KeepRealSales(KeepLowerClasses(rows))) == all
  {
    var all := (w: Row) => IsRecentDeed(w) && IsRealSale(w) && IsLowerClass(w);
    FilterThree(rows, IsRecentDeed, IsRealSale, IsLowerClass, all);
    FilterThree(rows, IsRecentDeed, IsLowerClass, IsRealSale, all);
    FilterThree(rows, IsRealSale, IsRecentDeed, IsLowerClass, all);
    FilterThree(rows, IsRealSale, IsLowerClass, IsRecentDeed, all);
    FilterThree(rows, IsLowerClass, IsRecentDeed, IsRealSale, all);
    FilterThree(rows, IsLowerClass, IsRealSale, IsRecentDeed, all);
  }

  /** The whole of utils/util.py stated on the raw table: select the raw
      rows that survive every filter and have PROPERTY CLASS below 500,
      then derive their seven columns. */
  lemma MatchesReference(t: seq<RawRecord>, mercator: Projection)
    requires FirstIndex(t, IsLocatedSentinel).Some?
    requires ProcessData(t, mercator).Success?
    ensures var sentinel := t[FirstIndex(t, IsLocatedSentinel).value].deedDate;
      ProcessData(t, mercator).value
        == Map(Filter(t, (x: RawRecord) => Survives(x, sentinel) && x.propertyClass < ClassCeiling),
               (x: RawRecord) => ToViewRow(AddYear(Place(x, mercator))))
  {
    var sentinel := t[FirstIndex(t, IsLocatedSentinel).value].deedDate;
    AgreesWithHelpers(t, mercator);
    var helpersRows := Helpers.ProcessData(t, mercator).value;
    assert helpersRows == Map(Filter(t, SurvivesWith(sentinel)), CleanWith(mercator));
    var low := (x: RawRecord) => x.propertyClass < ClassCeiling;
    FilterMap(Filter(t, SurvivesWith(sentinel)), CleanWith(mercator), IsLowerClass, low);
    var both := (x: RawRecord) => Survives(x, sentinel) && x.propertyClass < ClassCeiling;
    FilterFuse(t, SurvivesWith(sentinel), low, both);
    MapMap(Filter(t, both), CleanWith(mercator), ToViewRow, (x: RawRecord) => ToViewRow(AddYear(Place(x, mercator))));
  }
}

=== FILE: view.dfy ===
/** The map view's row selection in main.py: the initial year and class
    window, and `update_data`, which re-selects rows by an inclusive
    DEED YEAR range and by the property-class buckets whose checkbox is
    active. The widgets themselves are replaced by plain parameters. */
module View {
  import opened Seqs
  import opened Records

  /** The initial slider range. */
  const InitialStart := 2013
  const InitialEnd := 2019

  /** Checkbox `b` (0 Residential, 1 Vacant Land, 2 Commercial) governs the
      PROPERTY CLASS bucket [200 + 100 b, 300 + 100 b). */
  predicate InBucket(c: int, b: int) {
    200 + 100 * b <= c < 300 + 100 * b
  }

  /** A class the checkbox state hides: it lies in the bucket of an
      inactive checkbox. */
  predicate Hidden(c: int, active: set<int>) {
    || (0 !in active && InBucket(c, 0))
    || (1 !in active && InBucket(c, 1))
    || (2 !in active && InBucket(c, 2))
  }

  function InYears(start: int, end: int): ViewRow -> bool {
    (w: ViewRow) => start <= w.deedYear <= end
  }

  function OutsideBucket(b: int): ViewRow -> bool {
    (w: ViewRow) => !InBucket(w.propertyClass, b)
  }

  /** The one-filter statement of `update_data`. */
  function ShownWith(start: int, end: int, active: set<int>): ViewRow -> bool {
    (w: ViewRow) => start <= w.deedYear <= end && !Hidden(w.propertyClass, active)
  }

  /** The rows kept once the year filter and the first `n` checkbox
      filters have run. */
  predicate ShownThrough(w: ViewRow, start: int, end: int, active: set<int>, n: int) {
    && start <= w.deedYear <= end
    && (n > 0 && 0 !in active ==> !InBucket(w.propertyClass, 0))
    && (n > 1 && 1 !in active ==> !InBucket(w.propertyClass, 1))
    && (n > 2 && 2 !in active ==> !InBucket(w.propertyClass, 2))
  }

  function ThroughWith(start: int, end: int, active: set<int>, n: int): ViewRow -> bool {
    (w: ViewRow) => ShownThrough(w, start, end, active, n)
  }

  /** `update_data(start_year, end_year)` with the active checkboxes as a
      parameter: the year filter, then one class filter per inactive
      checkbox, in checkbox order. */
  function UpdateData(rows: seq<ViewRow>, start: int, end: int, active: set<int>): (r: seq<ViewRow>)
    ensures |r| <= |rows|
    ensures forall i :: 0 <= i < |r| ==> r[i] in rows && start <= r[i].deedYear <= end
  {
    var byYear := Filter(rows, InYears(start, end));
    var b0 := if 0 !in active then Filter(byYear, OutsideBucket(0)) else byYear;
    var b1 := if 1 !in active then Filter(b0, OutsideBucket(1)) else b0;
    if 2 !in active then Filter(b1, OutsideBucket(2)) else b1
  }

  /** The chain of filters in `update_data` selects exactly the rows in the
      year range whose class no inactive checkbox hides. */
  lemma UpdateDataIsOneFilter(rows: seq<ViewRow>, start: int, end: int, active: set<int>)
    ensures UpdateData(rows, start, end, active) == Filter(rows, ShownWith(start, end, active))
  {
    var byYear := Filter(rows, InYears(start, end));
    var b0 := if 0 !in active then Filter(byYear, OutsideBucket(0)) else byYear;
    var b1 := if 1 !in active then Filter(b0, OutsideBucket(1)) else b0;
    var b2 := if 2 !in active then Filter(b1, OutsideBucket(2)) else b1;
    FilterExt(rows, InYears(start, end), ThroughWith(start, end, active, 0));
    FilterUnless(rows, ThroughWith(start, end, active, 0), 0 in active, OutsideBucket(0), ThroughWith(start, end, active, 1));
    assert b0 == Filter(rows, ThroughWith(start, end, active, 1));
    FilterUnless(rows, ThroughWith(start, end, active, 1), 1 in active, OutsideBucket(1), ThroughWith(start, end, active, 2));
    assert b1 == Filter(rows, ThroughWith(start, end, active, 2));
    FilterUnless(rows, ThroughWith(start, end, active, 2), 2 in active, OutsideBucket(2), ThroughWith(start, end, active, 3));
    assert b2 == Filter(rows, ThroughWith(start, end, active, 3));
    FilterExt(rows, ThroughWith(start, end, active, 3), ShownWith(start, end, active));
  }

  /** What `update_data` shows: rows of the table, in order, with DEED YEAR
      in the inclusive range. */
  lemma UpdateDataInRange(rows: seq<ViewRow>, start: int, end: int, active: set<int>)
    ensures var r := UpdateData(rows, start, end, active);
      && IsSubsequence(r, rows)
      && (forall i :: 0 <= i < |r| ==> r[i] in rows && start <= r[i].deedYear <= end)
  {
    var r := UpdateData(rows, start, end, active);
    UpdateDataIsOneFilter(rows, start, end, active);
    FilterIsSubsequence(rows, ShownWith(start, end, active));
    forall i | 0 <= i < |r|
      ensures start <= r[i].deedYear <= end
    {
      assert ShownWith(start, end, active)(r[i]);
    }
  }

  /** No shown row has a class in the bucket of an inactive checkbox. */
  lemma UpdateDataHidesBuckets(rows: seq<ViewRow>, start: int, end: int, active: set<int>)
    ensures var r := UpdateData(rows, start, end, active);
      && (0 !in active ==> forall i :: 0 <= i < |r| ==> !(200 <= r[i].propertyClass < 300))
      && (1 !in active ==> forall i :: 0 <= i < |r| ==> !(300 <= r[i].propertyClass < 400))
      && (2 !in active ==> forall i :: 0 <= i < |r| ==> !(400 <= r[i].propertyClass < 500))
  {
    var r := UpdateData(rows, start, end, active);
    UpdateDataIsOneFilter(rows, start, end, active);
    forall i | 0 <= i < |r|
      ensures !Hidden(r[i].propertyClass, active)
    {
      assert ShownWith(start, end, active)(r[i]);
    }
  }

  /** `update_data` drops no row it should show: every in-range row whose
      class is not hidden is in the result. */
  lemma UpdateDataComplete(rows: seq<ViewRow>, start: int, end: int, active: set<int>, i: int)
    requires 0 <= i < |rows| && start <= rows[i].deedYear <= end
    requires !Hidden(rows[i].propertyClass, active)
    ensures rows[i] in UpdateData(rows, start, end, active)
  {
    UpdateDataIsOneFilter(rows, start, end, active);
    assert ShownWith(start, end, active)(rows[i]);
  }

  /** Classes below 200 or from 500 up are never removed by the checkboxes:
      an in-range row with such a class is always shown. */
  lemma OutsideBucketsAlwaysShown(rows: seq<ViewRow>, start: int, end: int, active: set<int>, i: int)
    requires 0 <= i < |rows| && start <= rows[i].deedYear <= end
    requires rows[i].propertyClass < 200 || rows[i].propertyClass >= 500
    ensures rows[i] in UpdateData(rows, start, end, active)
  {
    UpdateDataComplete(rows, start, end, active, i);
  }

  /** With all three checkboxes active only the year filter applies. */
  lemma AllActiveOnlyYears(rows: seq<ViewRow>, start: int, end: int, active: set<int>)
    requires 0 in active && 1 in active && 2 in active
    ensures UpdateData(rows, start, end, active) == Filter(rows, InYears(start, end))
  {
    UpdateDataIsOneFilter(rows, start, end, active);
    FilterExt(rows, ShownWith(start, end, active), InYears(start, end));
  }

  function InClassRange(lo: int, hi: int): ViewRow -> bool {
    (w: ViewRow) => lo <= w.propertyClass < hi
  }

  /** The rows of the initial view. */
  predicate InInitialWindow(w: ViewRow) {
    InitialStart <= w.deedYear <= InitialEnd && 200 <= w.propertyClass < 300
  }

  /** The initial view: DEED YEAR from 2013 to 2019, then PROPERTY CLASS in
      [200, 300). */
  function InitialView(rows: seq<ViewRow>): (r: seq<ViewRow>)
    ensures IsSubsequence(r, rows)
    ensures forall i :: 0 <= i < |r| ==> r[i] in rows && InInitialWindow(r[i])
    ensures forall i :: 0 <= i < |rows| && InInitialWindow(rows[i]) ==> rows[i] in r
    ensures forall w :: multiset(r)[w] == (if InInitialWindow(w) then multiset(rows)[w] else 0)
  {
    InitialViewIsOneFilter(rows);
    Filter(Filter(rows, InYears(InitialStart, InitialEnd)), InClassRange(200, 300))
  }

  /** The two filters of the initial view are one filter by the window. */
  lemma InitialViewIsOneFilter(rows: seq<ViewRow>)
    ensures var r := Filter(Filter(rows, InYears(InitialStart, InitialEnd)), InClassRange(200, 300));
      && r == Filter(rows, InInitialWindow)
      && IsSubsequence(r, rows)
      && (forall w :: multiset(r)[w] == (if InInitialWindow(w) then multiset(rows)[w] else 0))
  {
    FilterFuse(rows, InYears(InitialStart, InitialEnd), InClassRange(200, 300), InInitialWindow);
    FilterIsSubsequence(rows, InInitialWindow);
    FilterCount(rows, InInitialWindow);
  }

  /** On a table whose classes all lie in the three checkbox buckets, the
      initial view is what `update_data` shows for the initial range with
      only the Residential checkbox active. */
  lemma InitialViewIsResidentialUpdate(rows: seq<ViewRow>)
    requires forall i :: 0 <= i < |rows| ==> 200 <= rows[i].propertyClass < 500
    ensures InitialView(rows) == UpdateData(rows, InitialStart, InitialEnd, {0})
  {
    var shown := ShownWith(InitialStart, InitialEnd, {0});
    forall i | 0 <= i < |rows|
      ensures InInitialWindow(rows[i]) == shown(rows[i])
    {
      assert 0 in {0} && 1 !in {0} && 2 !in {0};
    }
    FilterExt(rows, InInitialWindow, shown);
    InitialViewIsOneFilter(rows);
    UpdateDataIsOneFilter(rows, InitialStart, InitialEnd, {0});
  }

  /** Outside the buckets the two differ: a 2015 sale of class 100 is shown
      by `update_data` with only Residential active but not initially. */
  lemma InitialViewDiffersFromUpdate()
    ensures var rows := [ViewRow(1, 0.0, 0.0, 2015, 100, 50000, "", "")];
      InitialView(rows) != UpdateData(rows, InitialStart, InitialEnd, {0})
  {
    var rows := [ViewRow(1, 0.0, 0.0, 2015, 100, 50000, "", "")];
    OutsideBucketsAlwaysShown(rows, InitialStart, InitialEnd, {0}, 0);
    assert rows[0] !in InitialView(rows);
  }
}

=== FILE: wrappers.dfy ===
/** Failure-compatible wrappers: `Option` for a value that may be absent
    (a missing table cell, a string that is not an integer) and `Result`
    for a computation that may raise. Both work with `:-`. */
module Wrappers {

  datatype Option<+T> = None | Some(value: T) {

    predicate IsFailure() {
      None?
    }

    function PropagateFailure<U>(): Option<U>
      requires None?
    {
      None
    }

    function Extract(): T
      requires Some?
    {
      value
    }
  }

  datatype Result<+R, +E> = Success(value: R) | Failure(error: E) {

    predicate IsFailure() {
      Failure?
    }

    function PropagateFailure<U>(): Result<U, E>
      requires Failure?
    {
      Failure(error)
    }

    function Extract(): R
      requires Success?
    {
      value
    }
  }
}
